=== FILE: README.md ===
# Labeling flow model

A Dafny model of the `Labeling` flow of the penguins project, found in
`pipelines/labeling.py`. The flow makes fake ground-truth labels for the samples a
hosted model has answered, so that the monitoring flow has something to compare
the predictions with. The model covers four parts:

- **Scheme dispatch** (`Labeling.start`). A datastore location starting with
  `sqlite://` selects the SQLite pass, and one starting with `s3://` selects the S3
  pass. Any other location raises `ValueError`.
- **Label rule** (`_get_label`). The rule keeps the prediction when the random draw
  falls below `ground-truth-quality`. Otherwise it picks one of `Adelie`,
  `Chinstrap` and `Gentoo`.
- **SQLite pass** (`_label_sqlite_data`). It selects the rows of `data` whose
  `species` is null and sets a label on each of them by `uuid`. It returns how many
  rows it selected.
- **S3 pass** (`_label_sagemaker_data`). It needs a ground-truth location. It groups
  the captured samples by `event_id` and builds one ground-truth record per event:
  the labels, `"CSV"`, the event id and version `"0"`. It joins the serialised
  records with newlines and uploads them. The bucket is the location's third
  `/`-component. The key is the fourth component onward, followed by
  `YYYY/MM/DD/HH/MMSS.jsonl` for the upload time. The pass returns the number of
  samples.

Modules:

| file | module | contents |
|---|---|---|
| `results.dfy` | `Results` | `Option`, `Result`, and the three errors the flow raises |
| `text.dfy` | `Text` | Python's `str.startswith`, `str.split` and `str.join` on one separator |
| `labels.dfy` | `Labels` | the species list, the draw model and the label rule |
| `sqlite_store.dfy` | `SqliteStore` | the `data` table, the null-species query, the `UPDATE` by uuid and the labelling loop |
| `timestamps.dfy` | `Timestamps` | UTC times, the `%Y/%m/%d/%H/%M%S` key path and its inverse |
| `sagemaker_store.dfy` | `SageMakerStore` | grouping by event, ground-truth records, the payload, the bucket and key, and the S3 pass |
| `labeling.dfy` | `Labeling` | parameters, scheme dispatch and the `start` step |

Inputs the flow gets from outside are passed in explicitly:

- The `random` module becomes a stream `draws: nat -> Draw`. Each `Draw` carries the
  real in [0, 1) that `random.random()` returns and the index in 0..2 that
  `random.choice` picks. The k-th label drawn in a pass uses `draws(k)`.
- `datetime.now(tz=timezone.utc)` becomes a `UtcTime` argument, with microseconds.
- `json.dumps` becomes a serialiser argument `dumps: Record -> string`.
- The database's `data` table becomes a `Table`, a sequence of rows.
- The result of `load_unlabeled_data` becomes a sequence of `CaptureRow`s.

Facts about the code that the model keeps:

- `ground-truth-quality` is the probability of keeping the prediction: the
  prediction is kept when `random.random() < ground_truth_quality`
  (pipelines/labeling.py:93). `Labels.Label` models this.
- The missing-location check runs before the S3 client is created and before any
  data is loaded (pipelines/labeling.py:142-152).
  `SageMakerStore.MissingUriFailsFirst` states that the failure does not depend on
  the samples, the draws or the clock.
- A ground-truth location with fewer than three `/`-components makes
  `split("/")[2]` raise `IndexError`. The code only reaches that line when there
  are samples: an empty capture returns 0 first. `SageMakerStore.LabelSageMaker`
  models this as `BucketIndexError`, raised only when `data` is non-empty.
- The key path keeps the upload time only down to the second. Two passes in the same
  second under the same ground-truth location write the same key, and the second
  `put_object` replaces the first object. `SageMakerStore.ObjectKeySameSecond` states
  this and `Timestamps.SameSecondSameKeyPath` gives two such times.

## Model

| member | source | states |
|---|---|---|
| `Labels.Label` | pipelines/labeling.py:91-95 | the label is the prediction or one of the three species; a draw at or above the quality always gives a species, and the label differs from the prediction only on such a draw |
| `Labels.FullQualityKeepsPrediction` | pipelines/labeling.py:93 | since draws lie in [0, 1), a quality of 1.0 or more never changes the prediction |
| `Labels.ZeroQualityAlwaysResamples` | pipelines/labeling.py:93-94 | a quality of 0.0 or less always gives the species choice |
| `Labels.BothBranchesReachable` | pipelines/labeling.py:91-95 | below quality 1.0 every species can be drawn, and above 0.0 the prediction can be kept; so at the default quality 0.8 both happen |
| `Labeling.SelectBackend` | pipelines/labeling.py:64-74 | `sqlite://` selects SQLite and `s3://` selects S3, each if and only if the location has that prefix; a location with neither prefix is an invalid datastore |
| `Labeling.SchemesDisjoint` | pipelines/labeling.py:64-67 | no location has both prefixes, so the order of the two tests does not matter |
| `Labeling.SchemesAccepted` | pipelines/labeling.py:64-67 | every `sqlite://…` and every `s3://…` location is accepted by its own pass |
| `Labeling.Start` | pipelines/labeling.py:62-76 | an invalid location fails and runs neither pass; a SQLite location reports the number of null-species rows, changes nothing when there are none, keeps rows whose uuid was not selected and (with unique uuids) rows already labelled, and gives each null-species row the rule's label; an S3 location returns or raises exactly what the S3 pass does |
| `SqliteStore.SelectUnlabeled` | pipelines/labeling.py:110 | the query result holds exactly the rows whose species is null |
| `SqliteStore.SelectOrder` | pipelines/labeling.py:110 | the query keeps table order: a null-species row sits at its rank among the null-species rows |
| `SqliteStore.SelectedRowIsAtRank` | pipelines/labeling.py:117-119 | with unique uuids, the table row sharing a uuid with query row k is that row and has rank k |
| `SqliteStore.SetSpecies` | pipelines/labeling.py:122-123 | the `UPDATE` sets the species of every row with the uuid and leaves all other rows and all uuids and predictions unchanged |
| `SqliteStore.LabelTable` | pipelines/labeling.py:110-128 | returns the number of null-species rows; without any it changes nothing; rows whose uuid was not selected are unchanged and selected uuids end with a species; with unique uuids, labelled rows are unchanged and each null-species row gets the rule's label from the draw at its rank |
| `Text.Split` | pipelines/labeling.py:187 | `str.split` yields at least one part, no part contains the separator, and joining the parts gives back the string |
| `Text.SplitJoin` | pipelines/labeling.py:184 | splitting a join of separator-free parts gives back the parts |
| `Text.StartsWithSplits` | pipelines/labeling.py:64-66 | `startswith` holds exactly when the string is the prefix followed by the rest |
| `Text.JoinAppend` | pipelines/labeling.py:184-187 | `join` puts one separator between neighbouring parts: joining one more part appends the separator and the part |
| `Timestamps.KeyPathFields` | pipelines/labeling.py:188 | the `%Y`, `%m`, `%d`, `%H` and `%M%S` fields are all digits, of widths 4, 2, 2, 2 and 4 |
| `Timestamps.DecimalOfPadded` | pipelines/labeling.py:188 | a zero-padded field reads back as the number it encodes |
| `Timestamps.ParseKeyPathSound` | pipelines/labeling.py:188 | anything the key-path reader accepts is the key path of the time it returns |
| `Timestamps.KeyPathRoundTrip` | pipelines/labeling.py:188 | the key path of a time reads back as that time without its microseconds |
| `Timestamps.KeyPathInjective` | pipelines/labeling.py:185-188 | two upload times have the same key path if and only if they agree from the year down to the second |
| `Timestamps.SameSecondSameKeyPath` | pipelines/labeling.py:185-188 | exhibits two distinct times in one second (09:05:12.000000 and 09:05:12.500000) that share a key path; the general fact is `KeyPathInjective` |
| `Timestamps.KeyPathShape` | pipelines/labeling.py:188 | the key path has 18 characters, `/` at positions 4, 7, 10 and 13 and digits everywhere else |
| `SageMakerStore.RowsOfMembers` | pipelines/labeling.py:162 | an event's group holds exactly the samples with that event id |
| `SageMakerStore.AddSample` | pipelines/labeling.py:162 | filing a sample appends it to its event's group, or opens a new group at the end, and adds one to the sample total |
| `SageMakerStore.AddSamplePartitions` | pipelines/labeling.py:162 | filing a sample keeps the groups a partition of the samples by event |
| `SageMakerStore.GroupByEvent` | pipelines/labeling.py:162 | one non-empty group per distinct event, each holding exactly that event's samples in capture order, and as many samples in all as captured |
| `SageMakerStore.LabelRowsAt` | pipelines/labeling.py:163-165 | label j of an event is sample j's label from the j-th draw of that event |
| `SageMakerStore.BuildRecords` | pipelines/labeling.py:162-182 | one record per group, and as many labels over all records as samples over all groups |
| `SageMakerStore.BuildRecordsAt` | pipelines/labeling.py:162-182 | record k is group k's event with its samples' labels, drawn after those of the groups before it |
| `SageMakerStore.RecordOfGroup` | pipelines/labeling.py:162-180 | record k, built by `EventRecord`, has group k's event id, `"CSV"`, version `"0"`, one label per sample, each label the prediction or a species, and exactly the predictions at quality 1.0 or more |
| `SageMakerStore.RecordEventsOfBuild` | pipelines/labeling.py:162-180 | the records' event ids are the groups' event ids, in order |
| `SageMakerStore.PayloadLines` | pipelines/labeling.py:182-184 | `Payload` joins the serialised records with newlines; when the serialiser emits no raw newline, the payload splits back into exactly one line per record, line k being record k serialised |
| `SageMakerStore.SplitS3Location` | pipelines/labeling.py:187-191 | `s3://bucket/prefix` with a slash-free bucket splits into `s3:`, an empty part, the bucket and the prefix's components |
| `SageMakerStore.FromFourthRest` | pipelines/labeling.py:187 | `[3:]` keeps all components but the first three, and the first three followed by it give all components |
| `SageMakerStore.ObjectKeySameSecond` | pipelines/labeling.py:185-195 | under one location, `ObjectKey` gives two passes the same key exactly when their upload times fall in the same second, so the later upload replaces the earlier |
| `SageMakerStore.ObjectLocation` | pipelines/labeling.py:186-193 | for `s3://bucket/prefix` the upload goes to `bucket` and `ObjectKey` is the prefix, the key path and `.jsonl` |
| `SageMakerStore.BucketOnlyLocation` | pipelines/labeling.py:186-193 | for `s3://bucket` the upload goes to `bucket` under the key path and `.jsonl` alone |
| `SageMakerStore.LabelSageMaker` | pipelines/labeling.py:142-197 | fails if and only if the ground-truth location is missing or empty, or if there are samples and the location has no third component; otherwise returns the sample count and uploads if and only if there are samples, to the third component, under the derived key, with the records joined by newlines |
| `SageMakerStore.MissingUriFailsFirst` | pipelines/labeling.py:142-148 | `MissingUri` is `not self.ground_truth_uri` for an optional string, that is absent or empty; in that case the pass fails whatever the samples, draws and clock |
| `SageMakerStore.UploadedEvents` | pipelines/labeling.py:157-197 | with a ground-truth location that names a bucket and at least one sample, the pass uploads a record for every captured event, no event twice, one record per group, and a label total equal to the returned count |
| `SageMakerStore.UploadedRecords` | pipelines/labeling.py:163-180 | with a location that names a bucket and at least one sample, every uploaded record has `"CSV"`, version `"0"`, and one label per sample of its event, which has at least one; each label is the sample's prediction or a species, and the labels are exactly the predictions at quality 1.0 or more |

## Left out

- Metaflow: `FlowSpec`, `Parameter`, `@step`, `@project`, `@pypi_base` and `self.next` are orchestration. The `end` step only logs the count.
- The `sqlite3` connection, `commit` and `close` are left out. The table is a value and the pass returns the updated table. The early return at pipelines/labeling.py:115 skips `close`; connection lifetime is not modelled.
- `sqlite3.connect` receives the whole `sqlite://…` location as a file name. How SQLite resolves that name is not modelled.
- The query has no `ORDER BY`, so SQLite may return rows in any order. The model takes table order, and this decides which draw each row's label uses.
- Event ids are modelled as strings, never null. pandas `groupby` drops samples whose `event_id` is null, so such samples would get no record and no label, yet `len(data)` would still count them.
- Predictions are modelled as strings, never null. A null prediction that the coin keeps would write null back as the species, so that row would stay unlabelled while still being counted.
- `ground-truth-quality` and the draws of `random.random()` are Python floats; the model takes them as exact reals. A NaN quality, which the float parameter accepts and which makes every comparison false and so every label a species, and infinite qualities are not represented.
- Uuids are modelled as strings, never null. In SQL, `uuid = NULL` matches no row, so a null-uuid row would stay unlabelled while still being counted.
- `boto3` and `put_object`: the upload is returned as an `Upload` value holding the bucket, key, records and body.
- `load_unlabeled_data` is not part of this model. Its result is an input. So are the ground-truth labels it consults to decide what is unlabelled.
- Randomness: `random.choice` is only called when the coin fails, but the model gives every label a full `Draw`. Which draws a label uses matters, the draws' distribution does not, and no statistical claim is made.
- `json.dumps` is a parameter. `SageMakerStore.PayloadLines` assumes, as `json.dumps` guarantees by escaping, that it emits no raw newline.
- `SageMakerStore.GroupByEvent`: pandas sorts the groups by event id, while the model keeps first-appearance order. No contract states an order between events, so nothing depends on this difference. It does decide which draws each event's labels use.
- Logging and the `__main__` setup.
- `Timestamps.KeyPathFields`: `UtcTime` bounds each field (month 1..12, day 1..31, and so on) but does not check days per month. `%Y` is taken as four digits, which holds for years 1000..9999 on common platforms; the model pads every year to four digits.
- The key has no `/` between the prefix and the time path when the ground-truth location has no trailing `/`. S3 keys are plain strings, so this is modelled as written and not reported as a defect.

=== FILE: labeling.dfy ===
/** The labeling flow's `start` step: choose the store from the datastore location's
    scheme and run that store's labelling pass. */
module Labeling {
  import opened Results
  import opened Text
  import opened Labels
  import opened SqliteStore
  import opened Timestamps
  import opened SageMakerStore

  /** The flow's parameters: `datastore-uri`, `ground-truth-uri` (optional) and
      `ground-truth-quality` (0.8 unless given). */
  datatype Config = Config(datastoreUri: string, groundTruthUri: Option<string>, groundTruthQuality: real)

  const SqliteScheme: string := "sqlite://"
  const S3Scheme: string := "s3://"

  /** The two stores the flow can label. */
  datatype Backend = Sqlite | SageMaker

  /** A finished labelling pass: the number of samples labelled and what the pass
      wrote, the updated table or the uploaded object. */
  datatype Run =
    | SqliteRun(labeled: nat, table: Table)
    | S3Run(labeled: nat, upload: Option<Upload>)

  /** The scheme test of `start`: `sqlite://` is tried first, then `s3://`; any other
      location is rejected. */
  function SelectBackend(datastoreUri: string): (b: Result<Backend, Error>)
    ensures b == Ok(Sqlite) <==> StartsWith(datastoreUri, SqliteScheme)
    ensures b == Ok(SageMaker) <==> StartsWith(datastoreUri, S3Scheme)
    ensures b == Err(InvalidDatastore) <==>
              !StartsWith(datastoreUri, SqliteScheme) && !StartsWith(datastoreUri, S3Scheme)
  {
    SchemesDisjoint(datastoreUri);
    if StartsWith(datastoreUri, SqliteScheme) then Ok(Sqlite)
    else if StartsWith(datastoreUri, S3Scheme) then Ok(SageMaker)
    else Err(InvalidDatastore)
  }

  /** No location has both schemes, so the order of the two tests does not matter. */
  lemma SchemesDisjoint(datastoreUri: string)
    ensures !(StartsWith(datastoreUri, SqliteScheme) && StartsWith(datastoreUri, S3Scheme))
  {
    if StartsWith(datastoreUri, SqliteScheme) {
      assert datastoreUri[1] == SqliteScheme[1] == 'q';
    }
  }

  /** Every location with one of the schemes is accepted: `s3://bucket/prefix` and
      `sqlite://path` for any bucket, prefix and path. */
  lemma SchemesAccepted(rest: string)
    ensures SelectBackend(SqliteScheme + rest) == Ok(Sqlite)
    ensures SelectBackend(S3Scheme + rest) == Ok(SageMaker)
  {
    assert (SqliteScheme + rest)[..|SqliteScheme|] == SqliteScheme;
    assert (S3Scheme + rest)[..|S3Scheme|] == S3Scheme;
    SchemesDisjoint(S3Scheme + rest);
  }

  /** The `start` step. The SQLite pass labels `table`, the rows of the database's
      `data` table; the S3 pass labels `captured`, the samples the data-capture loader
      returned. The k-th label drawn uses `draws(k)`, and `now` is the upload time.
      - A location with neither scheme fails with `InvalidDatastore`.
      - A `sqlite://` location labels every row without a species and reports how many.
      - An `s3://` location reports exactly what the S3 pass returns or raises. */
  method Start(cfg: Config, table: Table, captured: seq<CaptureRow>, draws: Draws,
               now: UtcTime, dumps: Record -> string) returns (r: Result<Run, Error>)
    ensures r == Err(InvalidDatastore) <==> SelectBackend(cfg.datastoreUri).Err?
    ensures StartsWith(cfg.datastoreUri, SqliteScheme) ==>
              && r.Ok? && r.value.SqliteRun?
              && r.value.labeled == |SelectUnlabeled(table)|
              && |r.value.table| == |table|
              && (|SelectUnlabeled(table)| == 0 ==> r.value.table == table)
              && (forall i :: 0 <= i < |table| && table[i].uuid !in UuidsOf(SelectUnlabeled(table)) ==>
                    r.value.table[i] == table[i])
              && (UniqueUuids(table) ==> forall i :: 0 <= i < |table| && !Unlabeled(table[i]) ==>
                    r.value.table[i] == table[i])
              && (forall i :: 0 <= i < |table| ==>
                    r.value.table[i].uuid == table[i].uuid && r.value.table[i].prediction == table[i].prediction)
              && (forall i :: 0 <= i < |table| && table[i].uuid in UuidsOf(SelectUnlabeled(table)) ==>
                    r.value.table[i].species.Some?)
              && (UniqueUuids(table) ==> forall i :: 0 <= i < |table| && Unlabeled(table[i]) ==>
                    r.value.table[i].species
                    == Some(Label(table[i].prediction, cfg.groundTruthQuality, draws(Rank(table, i)))))
    ensures StartsWith(cfg.datastoreUri, S3Scheme) ==>
              var s := LabelSageMaker(cfg.groundTruthUri, captured, cfg.groundTruthQuality, draws, now, dumps);
              && (r.Ok? <==> s.Ok?)
              && (s.Ok? ==> r.value == S3Run(s.value.count, s.value.upload))
              && (s.Err? ==> r.error == s.error)
  {
    SchemesDisjoint(cfg.datastoreUri);
    var backend := SelectBackend(cfg.datastoreUri);
    if backend.Err? {
      return Err(InvalidDatastore);
    }
    if backend.value == Sqlite {
      var count, t' := LabelTable(table, cfg.groundTruthQuality, draws);
      return Ok(SqliteRun(count, t'));
    }
    var s := LabelSageMaker(cfg.groundTruthUri, captured, cfg.groundTruthQuality, draws, now, dumps);
    if s.Err? {
      return Err(s.error);
    }
    return Ok(S3Run(s.value.count, s.value.upload));
  }
}

=== FILE: labels.dfy ===
/** The fake ground-truth label rule (`Labeling._get_label`). The module `random` is
    replaced by an explicit draw: the uniform real that `random.random()` returns and
    the index that `random.choice` picks from the species list. */
module Labels {

  /** The species `random.choice` picks from, in the source's order. */
  const Species: seq<string> := ["Adelie", "Chinstrap", "Gentoo"]

  /** A value `random.random()` can return. */
  type Unit = r: real | 0.0 <= r < 1.0

  /** An index `random.choice` can pick from `Species`. */
  type Pick = i: int | 0 <= i < 3

  /** One row's worth of randomness. */
  datatype Draw = Draw(u: Unit, pick: Pick)

  /** A stream of draws; the k-th labelled row consumes `draws(k)`. */
  type Draws = nat -> Draw

  /** The prediction when the draw falls below the quality, otherwise the picked species.
      Whatever the inputs, the label is the prediction or one of the three species. */
  function Label(prediction: string, quality: real, d: Draw): (truth: string)
    ensures truth == prediction || truth in Species
    ensures truth != prediction ==> truth in Species && quality <= d.u
    ensures quality <= d.u ==> truth in Species
  {
    if d.u < quality then prediction else Species[d.pick]
  }

  /** Since every draw lies in [0, 1), a quality of 1.0 or more never changes the prediction. */
  lemma FullQualityKeepsPrediction(prediction: string, quality: real)
    requires quality >= 1.0
    ensures forall d: Draw :: Label(prediction, quality, d) == prediction
  {
  }

  /** A quality of 0.0 or less always takes the species choice. */
  lemma ZeroQualityAlwaysResamples(prediction: string, quality: real)
    requires quality <= 0.0
    ensures forall d: Draw :: Label(prediction, quality, d) == Species[d.pick]
  {
  }

  /** With a quality below 1.0 every species is a possible label, and with a quality above
      0.0 the prediction is a possible label: neither branch of the rule is dead. */
  lemma BothBranchesReachable(prediction: string, quality: real)
    ensures quality < 1.0 ==> forall s :: s in Species ==> exists d: Draw :: Label(prediction, quality, d) == s
    ensures quality > 0.0 ==> exists d: Draw :: Label(prediction, quality, d) == prediction
  {
    if quality < 1.0 {
      var u: Unit := if quality < 0.0 then 0.0 else quality;
      forall s | s in Species
        ensures exists d: Draw :: Label(prediction, quality, d) == s
      {
        var i: Pick := if s == Species[0] then 0 else if s == Species[1] then 1 else 2;
        assert Label(prediction, quality, Draw(u, i)) == s;
      }
    }
    if quality > 0.0 {
      assert Label(prediction, quality, Draw(0.0, 0)) == prediction;
    }
  }
}

=== FILE: results.dfy ===
/** Failure-carrying values shared by the labeling model. */
module Results {

  /** A value that may be absent, used for nullable columns and optional parameters. */
  datatype Option<+T> = None | Some(value: T)

  /** The outcome of an operation that can raise: a value or the error it raised. */
  datatype Result<+T, +E> = Ok(value: T) | Err(error: E)

  /** The errors the labeling flow raises. */
  datatype Error =
    /** `ValueError`: the datastore location has neither supported scheme. */
    | InvalidDatastore
    /** `RuntimeError`: the SageMaker path was chosen without a ground-truth location. */
    | MissingGroundTruthUri
    /** `IndexError`: the ground-truth location has fewer than three `/`-components,
        so it names no bucket. */
    | BucketIndexError
}

=== FILE: sagemaker_store.dfy ===
/** The S3 labelling pass (`Labeling._label_sagemaker_data`) reduced to its pure parts:
    the ground-truth location check, grouping the unlabelled samples by event, one
    ground-truth record per event, the newline-joined payload, and the bucket and key
    of the uploaded object. Loading the samples, the S3 client, `json.dumps` and the
    clock are inputs. */
module SageMakerStore {
  import opened Results
  import opened Text
  import opened Labels
  import opened Timestamps

  /** One unlabelled captured sample: the request (event) it belongs to and the
      model's prediction for it. */
  datatype CaptureRow = CaptureRow(eventId: string, prediction: string)

  /** The samples of one event, in capture order. */
  datatype Group = Group(eventId: string, rows: seq<CaptureRow>)

  /** The `groundTruthData` object of a record. */
  datatype GroundTruthData = GroundTruthData(data: seq<string>, encoding: string)

  /** The `eventMetadata` object of a record. */
  datatype EventMetadata = EventMetadata(eventId: string)

  /** One ground-truth record, the object `json.dumps` turns into one payload line. */
  datatype Record = Record(groundTruthData: GroundTruthData, eventMetadata: EventMetadata, eventVersion: string)

  /** The `put_object` call: where the payload goes, the records it holds and its text. */
  datatype Upload = Upload(bucket: string, key: string, records: seq<Record>, body: string)

  /** What the pass returns (the labelled-sample count) and the upload it made, if any. */
  datatype Outcome = Outcome(count: nat, upload: Option<Upload>)

  /** The samples belonging to event `e`, in order. */
  function RowsOf(data: seq<CaptureRow>, e: string): (rows: seq<CaptureRow>)
    ensures |rows| <= |data|
  {
    if |data| == 0 then []
    else (if data[0].eventId == e then [data[0]] else []) + RowsOf(data[1..], e)
  }

  /** Appending a sample extends exactly its own event's samples. */
  lemma {:induction false} RowsOfAppend(data: seq<CaptureRow>, r: CaptureRow, e: string)
    ensures RowsOf(data + [r], e) == RowsOf(data, e) + (if r.eventId == e then [r] else [])
  {
    var tail := if r.eventId == e then [r] else [];
    if |data| == 0 {
      assert data + [r] == [r];
      assert RowsOf([r], e) == tail + RowsOf([r][1..], e);
    } else {
      var head := if data[0].eventId == e then [data[0]] else [];
      assert (data + [r])[0] == data[0];
      assert (data + [r])[1..] == data[1..] + [r];
      assert RowsOf(data + [r], e) == head + RowsOf(data[1..] + [r], e);
      RowsOfAppend(data[1..], r, e);
      assert RowsOf(data, e) == head + RowsOf(data[1..], e);
    }
  }

  /** `RowsOf(data, e)` holds exactly the samples of `data` that belong to `e`. */
  lemma {:induction false} RowsOfMembers(data: seq<CaptureRow>, e: string)
    ensures forall r :: r in RowsOf(data, e) <==> r in data && r.eventId == e
  {
    if |data| > 0 {
      RowsOfMembers(data[1..], e);
      assert forall r :: r in data <==> r == data[0] || r in data[1..];
    }
  }

  /** The number of samples over all groups. */
  function RowCount(gs: seq<Group>): nat {
    if |gs| == 0 then 0 else |gs[0].rows| + RowCount(gs[1..])
  }

  /** The count is additive over concatenation. */
  lemma {:induction false} RowCountAppend(gs: seq<Group>, hs: seq<Group>)
    ensures RowCount(gs + hs) == RowCount(gs) + RowCount(hs)
  {
    if |gs| > 0 {
      assert (gs + hs)[1..] == gs[1..] + hs;
      RowCountAppend(gs[1..], hs);
    } else {
      assert gs + hs == hs;
    }
  }

  /** Replacing group `i` changes the count by the change in its size. */
  lemma RowCountUpdate(gs: seq<Group>, i: nat, g: Group)
    requires i < |gs|
    ensures RowCount(gs[i := g]) + |gs[i].rows| == RowCount(gs) + |g.rows|
  {
    assert gs == gs[..i] + [gs[i]] + gs[i + 1..];
    assert gs[i := g] == gs[..i] + [g] + gs[i + 1..];
    RowCountAppend(gs[..i] + [gs[i]], gs[i + 1..]);
    RowCountAppend(gs[..i] + [g], gs[i + 1..]);
    RowCountAppend(gs[..i], [gs[i]]);
    RowCountAppend(gs[..i], [g]);
  }

  /** The events the groups are keyed by, in group order. */
  function Keys(gs: seq<Group>): (keys: seq<string>)
    ensures |keys| == |gs|
    ensures forall k :: 0 <= k < |gs| ==> keys[k] == gs[k].eventId
  {
    if |gs| == 0 then [] else [gs[0].eventId] + Keys(gs[1..])
  }

  /** The position of the group keyed by `e`, or `|gs|` when there is none. */
  function GroupIndex(gs: seq<Group>, e: string): (i: nat)
    ensures i <= |gs|
    ensures i < |gs| ==> gs[i].eventId == e
    ensures i == |gs| ==> e !in Keys(gs)
  {
    if |gs| == 0 then 0
    else if gs[0].eventId == e then 0
    else 1 + GroupIndex(gs[1..], e)
  }

  /** No two groups share an event. */
  predicate DistinctKeys(gs: seq<Group>) {
    forall k, l :: 0 <= k < l < |gs| ==> gs[k].eventId != gs[l].eventId
  }

  /** The groups partition `data` by event: each group holds exactly its event's
      samples and at least one, no event has two groups, every sample's event has a
      group, and the groups hold as many samples as `data`. */
  ghost predicate PartitionsByEvent(gs: seq<Group>, data: seq<CaptureRow>) {
    && (forall k :: 0 <= k < |gs| ==> gs[k].rows == RowsOf(data, gs[k].eventId) && |gs[k].rows| > 0)
    && DistinctKeys(gs)
    && (forall r :: r in data ==> r.eventId in Keys(gs))
    && RowCount(gs) == |data|
  }

  /** Files one more sample: appended to its event's group, or a new group at the end
      when its event has none yet. No other group changes, and the count grows by one. */
  function AddSample(gs: seq<Group>, r: CaptureRow): (gs': seq<Group>)
    requires DistinctKeys(gs)
    ensures |gs'| == if r.eventId in Keys(gs) then |gs| else |gs| + 1
    ensures forall k :: 0 <= k < |gs| ==> gs'[k].eventId == gs[k].eventId
    ensures forall k :: 0 <= k < |gs| ==>
              gs'[k].rows == gs[k].rows + (if gs[k].eventId == r.eventId then [r] else [])
    ensures |gs'| > |gs| ==> gs'[|gs|] == Group(r.eventId, [r])
    ensures RowCount(gs') == RowCount(gs) + 1
  {
    var i := GroupIndex(gs, r.eventId);
    if i < |gs| then
      RowCountUpdate(gs, i, Group(r.eventId, gs[i].rows + [r]));
      gs[i := Group(r.eventId, gs[i].rows + [r])]
    else
      RowCountAppend(gs, [Group(r.eventId, [r])]);
      assert RowCount([Group(r.eventId, [r])]) == 1;
      gs + [Group(r.eventId, [r])]
  }

  /** A sample whose event has no group has no earlier samples of its event. */
  lemma NoGroupNoRows(data: seq<CaptureRow>, gs: seq<Group>, e: string)
    requires forall x :: x in data ==> x.eventId in Keys(gs)
    requires e !in Keys(gs)
    ensures RowsOf(data, e) == []
  {
    RowsOfMembers(data, e);
    if RowsOf(data, e) != [] {
      assert RowsOf(data, e)[0] in RowsOf(data, e);
    }
  }

  /** After filing `r`, every group holds exactly its event's samples, `r` included. */
  lemma AddSampleRows(gs: seq<Group>, data: seq<CaptureRow>, r: CaptureRow)
    requires PartitionsByEvent(gs, data)
    ensures var gs' := AddSample(gs, r);
            forall k :: 0 <= k < |gs'| ==> gs'[k].rows == RowsOf(data + [r], gs'[k].eventId) && |gs'[k].rows| > 0
  {
    var gs' := AddSample(gs, r);
    forall k | 0 <= k < |gs'|
      ensures gs'[k].rows == RowsOf(data + [r], gs'[k].eventId) && |gs'[k].rows| > 0
    {
      RowsOfAppend(data, r, gs'[k].eventId);
      if k == |gs| {
        NoGroupNoRows(data, gs, r.eventId);
      }
    }
  }

  /** After filing `r`, the events are still keyed once each and every sample's event,
      `r`'s included, has a group. */
  lemma AddSampleKeys(gs: seq<Group>, data: seq<CaptureRow>, r: CaptureRow)
    requires DistinctKeys(gs)
    requires forall x :: x in data ==> x.eventId in Keys(gs)
    ensures DistinctKeys(AddSample(gs, r))
    ensures forall x :: x in data + [r] ==> x.eventId in Keys(AddSample(gs, r))
  {
    var e := r.eventId;
    var gs' := AddSample(gs, r);
    forall x | x in data + [r]
      ensures x.eventId in Keys(gs')
    {
      if x in data {
        var j :| 0 <= j < |gs| && Keys(gs)[j] == x.eventId;
        assert Keys(gs')[j] == x.eventId;
      } else if e in Keys(gs) {
        var j :| 0 <= j < |gs| && Keys(gs)[j] == e;
        assert Keys(gs')[j] == e;
      } else {
        assert Keys(gs')[|gs|] == e;
      }
    }
    if |gs'| > |gs| {
      forall k | 0 <= k < |gs|
        ensures gs'[k].eventId != gs'[|gs|].eventId
      {
        assert Keys(gs)[k] == gs[k].eventId;
      }
    }
  }

  /** Filing the next sample turns a partition of the samples so far into a partition
      of them and the new one. */
  lemma AddSamplePartitions(gs: seq<Group>, data: seq<CaptureRow>, r: CaptureRow)
    requires PartitionsByEvent(gs, data)
    ensures PartitionsByEvent(AddSample(gs, r), data + [r])
  {
    AddSampleRows(gs, data, r);
    AddSampleKeys(gs, data, r);
  }

  /** The step of the grouping fold: filing the last sample extends a partition of the
      others to a partition of all of `data`. */
  lemma GroupByEventStep(sub: seq<Group>, data: seq<CaptureRow>)
    requires |data| > 0
    requires PartitionsByEvent(sub, data[..|data| - 1])
    ensures PartitionsByEvent(AddSample(sub, data[|data| - 1]), data)
  {
    var n := |data| - 1;
    assert data[..n] + [data[n]] == data;
    AddSamplePartitions(sub, data[..n], data[n]);
  }

  /** `data.groupby("event_id")`: one group per event holding that event's samples in
      capture order. Groups come in first-appearance order; nothing relies on that order. */
  function GroupByEvent(data: seq<CaptureRow>): (gs: seq<Group>)
    ensures PartitionsByEvent(gs, data)
  {
    if |data| == 0 then []
    else
      var n := |data| - 1;
      var sub := GroupByEvent(data[..n]);
      GroupByEventStep(sub, data);
      AddSample(sub, data[n])
  }

  /** The labels of one event's samples, generated in order from draw `offset` on. */
  function LabelRows(rows: seq<CaptureRow>, quality: real, draws: Draws, offset: nat): (labels: seq<string>)
    ensures |labels| == |rows|
  {
    if |rows| == 0 then []
    else
      var n := |rows| - 1;
      LabelRows(rows[..n], quality, draws, offset) + [Label(rows[n].prediction, quality, draws(offset + n))]
  }

  /** Label `j` of an event is sample `j`'s label from draw `offset + j`: the sample's
      prediction or one of the species. */
  lemma {:induction false} LabelRowsAt(rows: seq<CaptureRow>, quality: real, draws: Draws, offset: nat, j: nat)
    requires j < |rows|
    ensures LabelRows(rows, quality, draws, offset)[j] == Label(rows[j].prediction, quality, draws(offset + j))
    ensures LabelRows(rows, quality, draws, offset)[j] == rows[j].prediction
            || LabelRows(rows, quality, draws, offset)[j] in Species
  {
    var n := |rows| - 1;
    if j < n {
      LabelRowsAt(rows[..n], quality, draws, offset, j);
      assert rows[..n][j] == rows[j];
    }
  }

  /** The record built for one event: its labels, encoding `"CSV"`, the event's id and
      event version `"0"`. */
  function EventRecord(eventId: string, labels: seq<string>): Record {
    Record(GroundTruthData(labels, "CSV"), EventMetadata(eventId), "0")
  }

  /** The number of labels over all records. */
  function LabelCount(rs: seq<Record>): nat {
    if |rs| == 0 then 0 else |rs[0].groundTruthData.data| + LabelCount(rs[1..])
  }

  /** The number of samples in the groups before group `k`. */
  function Before(gs: seq<Group>, k: nat): nat
    requires k <= |gs|
  {
    RowCount(gs[..k])
  }

  /** The samples in the first `k` groups are those of the first group plus those of
      the next `k - 1`. */
  lemma RowCountShift(gs: seq<Group>, k: nat)
    requires 1 <= k <= |gs|
    ensures Before(gs, k) == |gs[0].rows| + Before(gs[1..], k - 1)
  {
    assert gs[..k][1..] == gs[1..][..k - 1];
  }

  /** One record per group, in group order; the labels of each group use the draws
      after those of the groups before it, so the label total equals the sample total. */
  function BuildRecords(gs: seq<Group>, quality: real, draws: Draws, offset: nat): (rs: seq<Record>)
    ensures |rs| == |gs|
    ensures LabelCount(rs) == RowCount(gs)
  {
    if |gs| == 0 then []
    else
      var tail := BuildRecords(gs[1..], quality, draws, offset + |gs[0].rows|);
      var rs := [EventRecord(gs[0].eventId, LabelRows(gs[0].rows, quality, draws, offset))] + tail;
      assert rs[1..] == tail;
      rs
  }

  /** Record `k` belongs to group `k`'s event and labels its samples in order, using
      the draws that follow the ones spent on groups `0..k`. */
  lemma {:induction false} BuildRecordsAt(gs: seq<Group>, quality: real, draws: Draws, offset: nat, k: nat)
    requires k < |gs|
    ensures BuildRecords(gs, quality, draws, offset)[k]
            == EventRecord(gs[k].eventId, LabelRows(gs[k].rows, quality, draws, offset + Before(gs, k)))
    decreases k
  {
    if k == 0 {
      assert gs[..0] == [];
    } else {
      BuildRecordsAt(gs[1..], quality, draws, offset + |gs[0].rows|, k - 1);
      RowCountShift(gs, k);
      assert gs[1..][k - 1] == gs[k];
    }
  }

  /** `"\n".join(records)`, each record through the serialiser (`json.dumps`). */
  function Payload(records: seq<Record>, dumps: Record -> string): string {
    Join(seq(|records|, k requires 0 <= k < |records| => dumps(records[k])), '\n')
  }

  /** When the serialiser never emits a raw newline (`json.dumps` escapes them), the
      payload has exactly one line per record, and line k is record k serialised. */
  lemma PayloadLines(records: seq<Record>, dumps: Record -> string)
    requires |records| >= 1
    requires forall k :: 0 <= k < |records| ==> '\n' !in dumps(records[k])
    ensures |Split(Payload(records, dumps), '\n')| == |records|
    ensures forall k :: 0 <= k < |records| ==> Split(Payload(records, dumps), '\n')[k] == dumps(records[k])
  {
    var lines := seq(|records|, k requires 0 <= k < |records| => dumps(records[k]));
    SplitJoin(lines, '\n');
  }

  /** Python's `parts[3:]`: empty when there are three parts or fewer. */
  function FromFourth(parts: seq<string>): seq<string> {
    if |parts| <= 3 then [] else parts[3..]
  }

  /** The first three components (scheme, empty part, bucket) and the components from
      the fourth on make up the whole location. */
  lemma FromFourthRest(parts: seq<string>)
    ensures |FromFourth(parts)| == if |parts| <= 3 then 0 else |parts| - 3
    ensures |parts| >= 3 ==> parts == parts[..3] + FromFourth(parts)
  {
    if |parts| >= 3 {
      assert parts == parts[..3] + parts[3..];
    }
  }

  /** The object key: the ground-truth location's `/`-components from the fourth on,
      joined with `/`, then the upload time's key path and `.jsonl`. */
  function ObjectKey(groundTruthUri: string, now: UtcTime): string {
    Join(FromFourth(Split(groundTruthUri, '/')), '/') + KeyPath(now) + ".jsonl"
  }

  /** `s3://bucket/prefix` splits into `s3:`, an empty part, the bucket and the
      prefix's own components. */
  lemma SplitS3Location(bucket: string, prefix: string)
    requires '/' !in bucket
    ensures Split("s3://" + bucket + "/" + prefix, '/') == ["s3:", "", bucket] + Split(prefix, '/')
  {
    var uri := "s3://" + bucket + "/" + prefix;
    assert uri == "s3:" + "/" + ("" + "/" + (bucket + "/" + prefix));
    SplitAfterPiece(bucket, '/', prefix);
    SplitAfterPiece("", '/', bucket + "/" + prefix);
    SplitAfterPiece("s3:", '/', "" + "/" + (bucket + "/" + prefix));
  }

  /** Under one ground-truth location, two passes write the same object key exactly when
      their upload times fall in the same second, so the later upload replaces the
      earlier one. */
  lemma ObjectKeySameSecond(groundTruthUri: string, t1: UtcTime, t2: UtcTime)
    ensures ObjectKey(groundTruthUri, t1) == ObjectKey(groundTruthUri, t2) <==> ToSecond(t1) == ToSecond(t2)
  {
    var p := Join(FromFourth(Split(groundTruthUri, '/')), '/');
    KeyPathShape(t1);
    KeyPathShape(t2);
    KeyPathInjective(t1, t2);
    var k1 := ObjectKey(groundTruthUri, t1);
    var k2 := ObjectKey(groundTruthUri, t2);
    assert k1[|p|..|p| + 18] == KeyPath(t1);
    assert k2[|p|..|p| + 18] == KeyPath(t2);
  }

  /** For `s3://bucket/prefix` with a slash-free bucket, the pass uploads to that bucket
      under a key that is the prefix followed by the key path. */
  lemma ObjectLocation(bucket: string, prefix: string, now: UtcTime)
    requires '/' !in bucket
    ensures var parts := Split("s3://" + bucket + "/" + prefix, '/');
            |parts| >= 3 && parts[2] == bucket
            && ObjectKey("s3://" + bucket + "/" + prefix, now) == prefix + KeyPath(now) + ".jsonl"
  {
    var uri := "s3://" + bucket + "/" + prefix;
    SplitS3Location(bucket, prefix);
    assert FromFourth(Split(uri, '/')) == Split(prefix, '/');
  }

  /** For `s3://bucket` the bucket is found and the key is the key path alone. */
  lemma BucketOnlyLocation(bucket: string, now: UtcTime)
    requires '/' !in bucket
    ensures var parts := Split("s3://" + bucket, '/');
            |parts| == 3 && parts[2] == bucket
            && ObjectKey("s3://" + bucket, now) == KeyPath(now) + ".jsonl"
  {
    var uri := "s3://" + bucket;
    assert uri == "s3:" + "/" + ("" + "/" + bucket);
    SplitNoSeparator(bucket, '/');
    SplitAfterPiece("", '/', bucket);
    SplitAfterPiece("s3:", '/', "" + "/" + bucket);
    assert Split(uri, '/') == ["s3:", "", bucket];
  }

  /** The ground-truth location is missing (`not self.ground_truth_uri`). */
  predicate MissingUri(groundTruthUri: Option<string>) {
    groundTruthUri.None? || groundTruthUri.value == ""
  }

  /** The S3 labelling pass over the samples `load_unlabeled_data` returned.
      - Without a ground-truth location it fails, and nothing else is done.
      - Without samples it returns 0 and uploads nothing.
      - A location with fewer than three `/`-components names no bucket (`IndexError`).
      - Otherwise it uploads one record per event, each with one label per sample of
        the event, and returns the number of samples, which equals the number of labels. */
  function LabelSageMaker(groundTruthUri: Option<string>, data: seq<CaptureRow>, quality: real,
                          draws: Draws, now: UtcTime, dumps: Record -> string): (r: Result<Outcome, Error>)
    ensures r.Err? <==> MissingUri(groundTruthUri) || (|data| > 0 && |Split(groundTruthUri.value, '/')| < 3)
    ensures r == Err(MissingGroundTruthUri) <==> MissingUri(groundTruthUri)
    ensures r == Err(BucketIndexError) <==>
              !MissingUri(groundTruthUri) && |data| > 0 && |Split(groundTruthUri.value, '/')| < 3
    ensures r.Ok? ==> r.value.count == |data|
    ensures r.Ok? ==> (r.value.upload.None? <==> |data| == 0)
    ensures r.Ok? && r.value.upload.Some? ==>
              var u := r.value.upload.value;
              && u.bucket == Split(groundTruthUri.value, '/')[2]
              && u.key == ObjectKey(groundTruthUri.value, now)
              && u.body == Payload(u.records, dumps)
  {
    if MissingUri(groundTruthUri) then Err(MissingGroundTruthUri)
    else if |data| == 0 then Ok(Outcome(0, None))
    else
      var gs := GroupByEvent(data);
      var records := BuildRecords(gs, quality, draws, 0);
      var parts := Split(groundTruthUri.value, '/');
      if |parts| < 3 then Err(BucketIndexError)
      else
        Ok(Outcome(|data|, Some(Upload(parts[2], ObjectKey(groundTruthUri.value, now), records, Payload(records, dumps)))))
  }

  /** The events the records are for, in record order. */
  function RecordEvents(rs: seq<Record>): (events: seq<string>)
    ensures |events| == |rs|
    ensures forall k :: 0 <= k < |rs| ==> events[k] == rs[k].eventMetadata.eventId
  {
    if |rs| == 0 then [] else [rs[0].eventMetadata.eventId] + RecordEvents(rs[1..])
  }

  /** The predictions of a run of samples, in order. */
  function Predictions(rows: seq<CaptureRow>): (ps: seq<string>)
    ensures |ps| == |rows|
    ensures forall j :: 0 <= j < |rows| ==> ps[j] == rows[j].prediction
  {
    if |rows| == 0 then [] else [rows[0].prediction] + Predictions(rows[1..])
  }

  /** The records of a labelling pass are keyed by the events of the groups. */
  lemma RecordEventsOfBuild(gs: seq<Group>, quality: real, draws: Draws, offset: nat)
    ensures RecordEvents(BuildRecords(gs, quality, draws, offset)) == Keys(gs)
  {
    var rs := BuildRecords(gs, quality, draws, offset);
    forall k | 0 <= k < |gs|
      ensures RecordEvents(rs)[k] == Keys(gs)[k]
    {
      BuildRecordsAt(gs, quality, draws, offset, k);
    }
  }

  /** Record `k` of a labelling pass is group `k`'s: encoding `"CSV"`, event version
      `"0"`, one label per sample, each the sample's prediction or one of the species,
      and exactly the predictions when the ground-truth quality is 1.0 or more. */
  lemma RecordOfGroup(gs: seq<Group>, quality: real, draws: Draws, offset: nat, k: nat)
    requires k < |gs|
    ensures var rec := BuildRecords(gs, quality, draws, offset)[k];
            && rec.eventMetadata.eventId == gs[k].eventId
            && rec.groundTruthData.encoding == "CSV"
            && rec.eventVersion == "0"
            && |rec.groundTruthData.data| == |gs[k].rows|
            && (forall j :: 0 <= j < |gs[k].rows| ==>
                  rec.groundTruthData.data[j] == gs[k].rows[j].prediction || rec.groundTruthData.data[j] in Species)
            && (quality >= 1.0 ==> rec.groundTruthData.data == Predictions(gs[k].rows))
  {
    var start := offset + Before(gs, k);
    BuildRecordsAt(gs, quality, draws, offset, k);
    var rows := gs[k].rows;
    var labels := LabelRows(rows, quality, draws, start);
    forall j | 0 <= j < |rows|
      ensures labels[j] == rows[j].prediction || labels[j] in Species
      ensures quality >= 1.0 ==> labels[j] == rows[j].prediction
    {
      LabelRowsAt(rows, quality, draws, start, j);
    }
  }

  /** With a ground-truth location that names a bucket and at least one sample, the
      pass uploads one record per event of the samples, no event twice, and one label
      per sample, so the returned count equals the label count. */
  lemma UploadedEvents(groundTruthUri: Option<string>, data: seq<CaptureRow>, quality: real,
                       draws: Draws, now: UtcTime, dumps: Record -> string)
    requires !MissingUri(groundTruthUri)
    requires |Split(groundTruthUri.value, '/')| >= 3
    requires |data| > 0
    ensures LabelSageMaker(groundTruthUri, data, quality, draws, now, dumps).Ok?
    ensures LabelSageMaker(groundTruthUri, data, quality, draws, now, dumps).value.upload.Some?
    ensures var u := LabelSageMaker(groundTruthUri, data, quality, draws, now, dumps).value.upload.value;
            && |u.records| == |GroupByEvent(data)|
            && LabelCount(u.records) == |data|
            && (forall x :: x in data ==> x.eventId in RecordEvents(u.records))
            && (forall k, l :: 0 <= k < l < |u.records| ==> RecordEvents(u.records)[k] != RecordEvents(u.records)[l])
  {
    var gs := GroupByEvent(data);
    RecordEventsOfBuild(gs, quality, draws, 0);
  }

  /** Every record of the upload has encoding `"CSV"`, event version `"0"`, and one label
      per sample of its event, which has at least one; label `j` is sample `j`'s
      prediction or one of the species, and with ground-truth quality 1.0 or more the
      labels are exactly the predictions. */
  lemma UploadedRecords(groundTruthUri: Option<string>, data: seq<CaptureRow>, quality: real,
                        draws: Draws, now: UtcTime, dumps: Record -> string)
    requires !MissingUri(groundTruthUri)
    requires |Split(groundTruthUri.value, '/')| >= 3
    requires |data| > 0
    ensures LabelSageMaker(groundTruthUri, data, quality, draws, now, dumps).Ok?
    ensures LabelSageMaker(groundTruthUri, data, quality, draws, now, dumps).value.upload.Some?
    ensures var records := LabelSageMaker(groundTruthUri, data, quality, draws, now, dumps).value.upload.value.records;
            forall k :: 0 <= k < |records| ==>
              var rows := RowsOf(data, records[k].eventMetadata.eventId);
              var labels := records[k].groundTruthData.data;
              && records[k].groundTruthData.encoding == "CSV"
              && records[k].eventVersion == "0"
              && |labels| == |rows| > 0
              && (forall j :: 0 <= j < |rows| ==> labels[j] == rows[j].prediction || labels[j] in Species)
              && (quality >= 1.0 ==> labels == Predictions(rows))
  {
    var gs := GroupByEvent(data);
    forall k | 0 <= k < |gs| {
      RecordOfGroup(gs, quality, draws, 0, k);
    }
  }

  /** The missing-location failure happens before anything is loaded, labelled or read
      from the clock: it does not depend on the samples, the draws or the time. */
  lemma MissingUriFailsFirst(groundTruthUri: Option<string>, data: seq<CaptureRow>, quality: real,
                             draws: Draws, now: UtcTime, dumps: Record -> string)
    requires MissingUri(groundTruthUri)
    ensures LabelSageMaker(groundTruthUri, data, quality, draws, now, dumps) == Err(MissingGroundTruthUri)
  {
  }
}

=== FILE: sqlite_store.dfy ===
/** The SQLite labelling pass (`Labeling._label_sqlite_data`) over an abstract `data`
    table: select the rows whose `species` is NULL, give each a label by `uuid`, and
    report how many were selected. The connection, the SQL text, `commit` and `close`
    are not modelled; the table before and after the pass are plain values. */
module SqliteStore {
  import opened Results
  import opened Labels

  /** One row of the `data` table; `species` is NULL until the row is labelled. */
  datatype Row = Row(uuid: string, prediction: string, species: Option<string>)

  /** The `data` table, in its stored order. */
  type Table = seq<Row>

  /** The row has no ground truth yet (`species IS NULL`). */
  predicate Unlabeled(r: Row) {
    r.species.None?
  }

  /** No two rows share a `uuid`. */
  predicate UniqueUuids(t: Table) {
    forall i, j :: 0 <= i < j < |t| ==> t[i].uuid != t[j].uuid
  }

  /** The identifiers occurring in some rows. */
  function UuidsOf(rows: seq<Row>): set<string> {
    set r | r in rows :: r.uuid
  }

  /** `SELECT * FROM data WHERE species IS NULL`: exactly the unlabelled rows, each as
      often as it occurs, in table order. */
  function SelectUnlabeled(t: Table): (df: seq<Row>)
    ensures |df| <= |t|
    ensures forall r :: r in df ==> r in t && Unlabeled(r)
    ensures forall r :: r in t && Unlabeled(r) ==> r in df
  {
    if |t| == 0 then []
    else
      assert forall r :: r in t ==> r == t[0] || r in t[1..];
      (if Unlabeled(t[0]) then [t[0]] else []) + SelectUnlabeled(t[1..])
  }

  /** How many unlabelled rows precede row `i`: its position in the query result. */
  function Rank(t: Table, i: nat): nat
    requires i <= |t|
  {
    |SelectUnlabeled(t[..i])|
  }

  /** The query distributes over a split of the table. */
  lemma {:induction false} SelectAppend(a: Table, b: Table)
    ensures SelectUnlabeled(a + b) == SelectUnlabeled(a) + SelectUnlabeled(b)
  {
    if |a| > 0 {
      assert (a + b)[1..] == a[1..] + b;
      SelectAppend(a[1..], b);
    } else {
      assert a + b == b;
    }
  }

  /** The query keeps table order: unlabelled row `i` is result row `Rank(t, i)`. */
  lemma SelectOrder(t: Table, i: nat)
    requires i < |t| && Unlabeled(t[i])
    ensures Rank(t, i) < |SelectUnlabeled(t)|
    ensures SelectUnlabeled(t)[Rank(t, i)] == t[i]
  {
    assert t == t[..i] + t[i..];
    SelectAppend(t[..i], t[i..]);
    assert t[i..][1..] == t[i+1..];
  }

  /** A query over a table with unique identifiers returns rows with unique identifiers. */
  lemma {:induction false} SelectUnique(t: Table)
    requires UniqueUuids(t)
    ensures UniqueUuids(SelectUnlabeled(t))
  {
    if |t| > 0 {
      assert UniqueUuids(t[1..]);
      SelectUnique(t[1..]);
      var rest := SelectUnlabeled(t[1..]);
      forall r | r in rest
        ensures r.uuid != t[0].uuid
      {
        var j :| 0 <= j < |t[1..]| && t[1..][j] == r;
        assert t[j + 1] == r;
      }
    }
  }

  /** With unique identifiers, the table row sharing result row `k`'s identifier is that
      very row, unlabelled, at rank `k`. */
  lemma SelectedRowIsAtRank(t: Table, k: nat, i: nat)
    requires UniqueUuids(t)
    requires k < |SelectUnlabeled(t)| && i < |t|
    requires t[i].uuid == SelectUnlabeled(t)[k].uuid
    ensures Unlabeled(t[i]) && t[i] == SelectUnlabeled(t)[k] && Rank(t, i) == k
  {
    var df := SelectUnlabeled(t);
    assert df[k] in df;
    var j :| 0 <= j < |t| && t[j] == df[k];
    assert i == j;
    SelectOrder(t, i);
    SelectUnique(t);
  }

  /** `UPDATE data SET species = ? WHERE uuid = ?`: every row carrying the identifier gets
      the species; identifiers and predictions are kept and every other row is untouched. */
  function SetSpecies(t: Table, uuid: string, species: string): (t': Table)
    ensures |t'| == |t|
    ensures forall i :: 0 <= i < |t| ==> t'[i].uuid == t[i].uuid && t'[i].prediction == t[i].prediction
    ensures forall i :: 0 <= i < |t| && t[i].uuid == uuid ==> t'[i].species == Some(species)
    ensures forall i :: 0 <= i < |t| && t[i].uuid != uuid ==> t'[i] == t[i]
  {
    if |t| == 0 then []
    else
      var head := if t[0].uuid == uuid then t[0].(species := Some(species)) else t[0];
      [head] + SetSpecies(t[1..], uuid, species)
  }

  /** What the pass has achieved once the first `k` selected rows have been updated:
      shape kept, rows of not-yet-selected identifiers untouched, rows of selected ones
      labelled, and (with unique identifiers) each by its own draw. */
  ghost predicate LabelledUpTo(t: Table, tk: Table, k: nat, quality: real, draws: Draws)
    requires k <= |SelectUnlabeled(t)|
  {
    var df := SelectUnlabeled(t);
    && |tk| == |t|
    && (forall i :: 0 <= i < |t| ==> tk[i].uuid == t[i].uuid && tk[i].prediction == t[i].prediction)
    && (forall i :: 0 <= i < |t| && t[i].uuid !in UuidsOf(df[..k]) ==> tk[i] == t[i])
    && (forall i :: 0 <= i < |t| && t[i].uuid in UuidsOf(df[..k]) ==> tk[i].species.Some?)
    && (UniqueUuids(t) ==> forall i :: 0 <= i < |t| && Unlabeled(t[i]) && Rank(t, i) < k ==>
          tk[i].species == Some(Label(t[i].prediction, quality, draws(Rank(t, i)))))
  }

  /** One `UPDATE` for the k-th selected row extends the progress by one row. */
  lemma LabelStep(t: Table, tk: Table, k: nat, quality: real, draws: Draws)
    requires k < |SelectUnlabeled(t)|
    requires LabelledUpTo(t, tk, k, quality, draws)
    ensures var df := SelectUnlabeled(t);
            LabelledUpTo(t, SetSpecies(tk, df[k].uuid, Label(df[k].prediction, quality, draws(k))), k + 1, quality, draws)
  {
    var df := SelectUnlabeled(t);
    var next := SetSpecies(tk, df[k].uuid, Label(df[k].prediction, quality, draws(k)));
    assert df[..k + 1] == df[..k] + [df[k]];
    assert UuidsOf(df[..k + 1]) == UuidsOf(df[..k]) + {df[k].uuid};
    if UniqueUuids(t) {
      forall i | 0 <= i < |t| && Unlabeled(t[i]) && Rank(t, i) < k + 1
        ensures next[i].species == Some(Label(t[i].prediction, quality, draws(Rank(t, i))))
      {
        SelectOrder(t, i);
        if t[i].uuid == df[k].uuid {
          SelectedRowIsAtRank(t, k, i);
        }
      }
    }
  }

  /** Progress over every selected row gives the pass's final guarantees. */
  lemma LabelDone(t: Table, tk: Table, quality: real, draws: Draws)
    requires LabelledUpTo(t, tk, |SelectUnlabeled(t)|, quality, draws)
    ensures forall i :: 0 <= i < |t| && t[i].uuid !in UuidsOf(SelectUnlabeled(t)) ==> tk[i] == t[i]
    ensures forall i :: 0 <= i < |t| && t[i].uuid in UuidsOf(SelectUnlabeled(t)) ==> tk[i].species.Some?
    ensures UniqueUuids(t) ==> forall i :: 0 <= i < |t| && !Unlabeled(t[i]) ==> tk[i] == t[i]
    ensures UniqueUuids(t) ==> forall i :: 0 <= i < |t| && Unlabeled(t[i]) ==>
              tk[i].species == Some(Label(t[i].prediction, quality, draws(Rank(t, i))))
  {
    var df := SelectUnlabeled(t);
    assert df[..|df|] == df;
    if UniqueUuids(t) {
      forall i | 0 <= i < |t| && Unlabeled(t[i])
        ensures Rank(t, i) < |df|
      {
        SelectOrder(t, i);
      }
    }
  }

  /** The labelling pass. It returns the number of rows the query selected and the table
      after the updates. With no unlabelled row it returns 0 and changes nothing. Every
      row whose identifier was selected ends up labelled, and no other row changes. When
      identifiers are unique, the k-th selected row carries the label the rule gives for
      its prediction and the k-th draw, and rows already labelled stay as they were. */
  method LabelTable(t: Table, quality: real, draws: Draws) returns (count: nat, t': Table)
    ensures count == |SelectUnlabeled(t)|
    ensures count == 0 ==> t' == t
    ensures |t'| == |t|
    ensures forall i :: 0 <= i < |t| ==> t'[i].uuid == t[i].uuid && t'[i].prediction == t[i].prediction
    ensures forall i :: 0 <= i < |t| && t[i].uuid !in UuidsOf(SelectUnlabeled(t)) ==> t'[i] == t[i]
    ensures forall i :: 0 <= i < |t| && t[i].uuid in UuidsOf(SelectUnlabeled(t)) ==> t'[i].species.Some?
    ensures UniqueUuids(t) ==> forall i :: 0 <= i < |t| && !Unlabeled(t[i]) ==> t'[i] == t[i]
    ensures UniqueUuids(t) ==> forall i :: 0 <= i < |t| && Unlabeled(t[i]) ==>
              t'[i].species == Some(Label(t[i].prediction, quality, draws(Rank(t, i))))
  {
    var df := SelectUnlabeled(t);
    if |df| == 0 {
      return 0, t;
    }
    t' := t;
    for k := 0 to |df|
      invariant LabelledUpTo(t, t', k, quality, draws)
    {
      LabelStep(t, t', k, quality, draws);
      t' := SetSpecies(t', df[k].uuid, Label(df[k].prediction, quality, draws(k)));
    }
    LabelDone(t, t', quality, draws);
    count := |df|;
  }
}

=== FILE: text.dfy ===
/** String helpers with the semantics of Python's `str.startswith`, `str.split(sep)`
    and `sep.join(parts)`. */
module Text {

  /** `s.startswith(prefix)`. */
  predicate StartsWith(s: string, prefix: string) {
    |prefix| <= |s| && s[..|prefix|] == prefix
  }

  /** A string starts with `prefix` exactly when it is `prefix` followed by the rest. */
  lemma StartsWithSplits(s: string, prefix: string)
    ensures StartsWith(s, prefix) <==> |prefix| <= |s| && s == prefix + s[|prefix|..]
  {
    if |prefix| <= |s| {
      assert s == s[..|prefix|] + s[|prefix|..];
      assert (prefix + s[|prefix|..])[..|prefix|] == prefix;
    }
  }

  /** `sep.join(parts)`: the parts with one separator between neighbours. */
  function Join(parts: seq<string>, sep: char): string {
    if |parts| == 0 then ""
    else if |parts| == 1 then parts[0]
    else parts[0] + [sep] + Join(parts[1..], sep)
  }

  /** Joining one more part appends a separator and the part: the separator goes
      between neighbours only. */
  lemma {:induction false} JoinAppend(parts: seq<string>, p: string, sep: char)
    requires |parts| >= 1
    ensures Join(parts + [p], sep) == Join(parts, sep) + [sep] + p
  {
    if |parts| == 1 {
      assert parts + [p] == [parts[0], p];
      assert [parts[0], p][1..] == [p];
    } else {
      assert (parts + [p])[1..] == parts[1..] + [p];
      JoinAppend(parts[1..], p, sep);
    }
  }

  /** `s.split(sep)` for a one-character separator: the maximal separator-free pieces
      between separators, always at least one (an empty string splits into `[""]`). */
  function Split(s: string, sep: char): (parts: seq<string>)
    ensures |parts| >= 1
    ensures forall i :: 0 <= i < |parts| ==> sep !in parts[i]
    ensures Join(parts, sep) == s
  {
    if |s| == 0 then [""]
    else
      var rest := Split(s[1..], sep);
      if s[0] == sep then
        assert s == [sep] + s[1..];
        [""] + rest
      else
        var parts := [[s[0]] + rest[0]] + rest[1..];
        assert parts[1..] == rest[1..];
        assert s == [s[0]] + s[1..];
        parts
  }

  /** A separator-free string is a single piece. */
  lemma {:induction false} SplitNoSeparator(a: string, sep: char)
    requires sep !in a
    ensures Split(a, sep) == [a]
  {
    if |a| > 0 {
      assert sep !in a[1..];
      SplitNoSeparator(a[1..], sep);
      assert a == [a[0]] + a[1..];
    }
  }

  /** A separator-free prefix followed by a separator becomes the first piece. */
  lemma {:induction false} SplitAfterPiece(a: string, sep: char, b: string)
    requires sep !in a
    ensures Split(a + [sep] + b, sep) == [a] + Split(b, sep)
  {
    var s := a + [sep] + b;
    if |a| == 0 {
      assert s[1..] == b;
    } else {
      assert s[1..] == a[1..] + [sep] + b;
      assert sep !in a[1..];
      SplitAfterPiece(a[1..], sep, b);
      assert a == [a[0]] + a[1..];
    }
  }

  /** Splitting undoes joining: `sep.join(ps).split(sep) == ps` whenever no piece
      contains the separator. Together with `Split`'s own contract this makes the two
      inverse bijections between strings and non-empty separator-free piece lists. */
  lemma {:induction false} SplitJoin(parts: seq<string>, sep: char)
    requires |parts| >= 1
    requires forall i :: 0 <= i < |parts| ==> sep !in parts[i]
    ensures Split(Join(parts, sep), sep) == parts
  {
    if |parts| == 1 {
      SplitNoSeparator(parts[0], sep);
    } else {
      SplitJoin(parts[1..], sep);
      SplitAfterPiece(parts[0], sep, Join(parts[1..], sep));
      assert parts == [parts[0]] + parts[1..];
    }
  }
}

=== FILE: timestamps.dfy ===
/** The upload time and the object-key suffix built from it with the `strftime` format
    `%Y/%m/%d/%H/%M%S`. The clock itself is not modelled: the caller passes the time in. */
module Timestamps {
  import opened Results
  import opened Text

  /** Calendar fields of a UTC `datetime`, down to the microsecond. */
  datatype DateTime = DateTime(year: nat, month: nat, day: nat, hour: nat, minute: nat, second: nat,
                               microsecond: nat)

  /** The ranges `datetime` keeps its fields in (days are bounded by 31 for every month). */
  predicate ValidFields(t: DateTime) {
    && 1 <= t.year <= 9999
    && 1 <= t.month <= 12
    && 1 <= t.day <= 31
    && t.hour < 24
    && t.minute < 60
    && t.second < 60
    && t.microsecond < 1000000
  }

  /** A time `datetime.now(tz=timezone.utc)` can return. */
  type UtcTime = t: DateTime | ValidFields(t) witness DateTime(1970, 1, 1, 0, 0, 0, 0)

  function Pow10(n: nat): (p: nat)
    ensures p >= 1
  {
    if n == 0 then 1 else 10 * Pow10(n - 1)
  }

  predicate IsDigit(c: char) {
    '0' <= c <= '9'
  }

  predicate AllDigits(s: string) {
    forall i :: 0 <= i < |s| ==> IsDigit(s[i])
  }

  /** `n` in decimal, zero-padded to exactly `width` digits, as `strftime` writes `%m`. */
  function Padded(n: nat, width: nat): (s: string)
    requires n < Pow10(width)
    ensures |s| == width
    ensures AllDigits(s)
  {
    if width == 0 then ""
    else Padded(n / 10, width - 1) + [('0' as int + n % 10) as char]
  }

  /** The number a string of decimal digits denotes. */
  function DecimalValue(s: string): nat
    requires AllDigits(s)
  {
    if |s| == 0 then 0
    else 10 * DecimalValue(s[..|s| - 1]) + (s[|s| - 1] as int - '0' as int)
  }

  /** Reading a padded number back gives the number. */
  lemma {:induction false} DecimalOfPadded(n: nat, width: nat)
    requires n < Pow10(width)
    ensures DecimalValue(Padded(n, width)) == n
  {
    if width > 0 {
      var s := Padded(n, width);
      assert s[..|s| - 1] == Padded(n / 10, width - 1);
      DecimalOfPadded(n / 10, width - 1);
    }
  }

  /** Padding the value of a digit string of the same width gives the string back. */
  lemma {:induction false} PaddedOfDecimal(s: string)
    requires AllDigits(s)
    ensures DecimalValue(s) < Pow10(|s|)
    ensures Padded(DecimalValue(s), |s|) == s
  {
    if |s| > 0 {
      var init := s[..|s| - 1];
      PaddedOfDecimal(init);
      var n := DecimalValue(s);
      var d := s[|s| - 1] as int - '0' as int;
      assert n / 10 == DecimalValue(init) && n % 10 == d;
      assert s == init + [s[|s| - 1]];
    }
  }

  /** The `/`-separated fields of the key path: year, month, day, hour, and minute with
      second run together. */
  function KeyPathFields(t: UtcTime): (fields: seq<string>)
    ensures |fields| == 5
    ensures forall i :: 0 <= i < 5 ==> AllDigits(fields[i])
    ensures |fields[0]| == 4 && |fields[1]| == 2 && |fields[2]| == 2 && |fields[3]| == 2 && |fields[4]| == 4
  {
    [Padded(t.year, 4), Padded(t.month, 2), Padded(t.day, 2), Padded(t.hour, 2),
     Padded(t.minute, 2) + Padded(t.second, 2)]
  }

  /** `f"{t:%Y/%m/%d/%H/%M%S}"`, e.g. `2024/03/07/09/0512` for 09:05:12 on 7 March 2024. */
  function KeyPath(t: UtcTime): string {
    Join(KeyPathFields(t), '/')
  }

  /** The time with its microseconds dropped: what the key path records of it. */
  function ToSecond(t: UtcTime): UtcTime {
    t.(microsecond := 0)
  }

  /** Reads a key path back into a time on a whole second; `None` when the text is not one. */
  function ParseKeyPath(s: string): Option<UtcTime> {
    var f := Split(s, '/');
    if |f| == 5 && |f[0]| == 4 && |f[1]| == 2 && |f[2]| == 2 && |f[3]| == 2 && |f[4]| == 4
       && AllDigits(f[0]) && AllDigits(f[1]) && AllDigits(f[2]) && AllDigits(f[3]) && AllDigits(f[4])
    then
      var t := DateTime(DecimalValue(f[0]), DecimalValue(f[1]), DecimalValue(f[2]),
                        DecimalValue(f[3]), DecimalValue(f[4][..2]), DecimalValue(f[4][2..]), 0);
      if ValidFields(t) then Some(t) else None
    else None
  }

  /** Whatever the parser accepts is exactly the key path of the time it returns. */
  lemma ParseKeyPathSound(s: string)
    ensures ParseKeyPath(s).Some? ==> KeyPath(ParseKeyPath(s).value) == s
  {
    var f := Split(s, '/');
    if ParseKeyPath(s).Some? {
      var t := ParseKeyPath(s).value;
      PaddedOfDecimal(f[0]);
      PaddedOfDecimal(f[1]);
      PaddedOfDecimal(f[2]);
      PaddedOfDecimal(f[3]);
      PaddedOfDecimal(f[4][..2]);
      PaddedOfDecimal(f[4][2..]);
      assert f[4] == f[4][..2] + f[4][2..];
      assert KeyPathFields(t) == f;
    }
  }

  /** The key path keeps everything down to the second: parsing it recovers the time
      without its microseconds. */
  lemma KeyPathRoundTrip(t: UtcTime)
    ensures ParseKeyPath(KeyPath(t)) == Some(ToSecond(t))
  {
    var fields := KeyPathFields(t);
    forall i | 0 <= i < 5
      ensures '/' !in fields[i]
    {
      assert AllDigits(fields[i]);
    }
    SplitJoin(fields, '/');
    var m := fields[4];
    assert m[..2] == Padded(t.minute, 2);
    assert m[2..] == Padded(t.second, 2);
    DecimalOfPadded(t.year, 4);
    DecimalOfPadded(t.month, 2);
    DecimalOfPadded(t.day, 2);
    DecimalOfPadded(t.hour, 2);
    DecimalOfPadded(t.minute, 2);
    DecimalOfPadded(t.second, 2);
  }

  /** Two upload times get the same key path exactly when they agree from the year down
      to the second; the microseconds never reach the key. */
  lemma KeyPathInjective(t1: UtcTime, t2: UtcTime)
    ensures KeyPath(t1) == KeyPath(t2) <==> ToSecond(t1) == ToSecond(t2)
  {
    KeyPathRoundTrip(t1);
    KeyPathRoundTrip(t2);
    if ToSecond(t1) == ToSecond(t2) {
      assert KeyPathFields(t1) == KeyPathFields(t2);
    }
  }

  /** Distinct times within one second share a key path: 09:05:12.000000 and
      09:05:12.500000 on 7 March 2024. */
  lemma SameSecondSameKeyPath()
    ensures var t1: UtcTime := DateTime(2024, 3, 7, 9, 5, 12, 0);
            var t2: UtcTime := DateTime(2024, 3, 7, 9, 5, 12, 500000);
            t1 != t2 && KeyPath(t1) == KeyPath(t2)
  {
    var t1: UtcTime := DateTime(2024, 3, 7, 9, 5, 12, 0);
    var t2: UtcTime := DateTime(2024, 3, 7, 9, 5, 12, 500000);
    KeyPathInjective(t1, t2);
  }

  /** The key path is `YYYY/MM/DD/HH/MMSS`: 18 characters with `/` at positions 4, 7,
      10 and 13 and a digit everywhere else. */
  lemma KeyPathShape(t: UtcTime)
    ensures |KeyPath(t)| == 18
    ensures forall i :: 0 <= i < 18 ==>
              if i == 4 || i == 7 || i == 10 || i == 13 then KeyPath(t)[i] == '/' else IsDigit(KeyPath(t)[i])
  {
    var f := KeyPathFields(t);
    var sep := ['/'];
    assert f[1..][1..][1..][1..] == [f[4]];
    assert Join(f[1..][1..][1..], '/') == f[3] + sep + f[4];
    assert Join(f[1..][1..], '/') == f[2] + sep + (f[3] + sep + f[4]);
    assert Join(f[1..], '/') == f[1] + sep + (f[2] + sep + (f[3] + sep + f[4]));
    var s := f[0] + sep + (f[1] + sep + (f[2] + sep + (f[3] + sep + f[4])));
    assert KeyPath(t) == s;
    forall i | 0 <= i < 18
      ensures if i == 4 || i == 7 || i == 10 || i == 13 then s[i] == '/' else IsDigit(s[i])
    {
      if i < 4 { assert s[i] == f[0][i]; }
      else if 4 < i < 7 { assert s[i] == f[1][i - 5]; }
      else if 7 < i < 10 { assert s[i] == f[2][i - 8]; }
      else if 10 < i < 13 { assert s[i] == f[3][i - 11]; }
      else if 13 < i { assert s[i] == f[4][i - 14]; }
    }
  }
}
